=== FILE: README.md ===
# Load-distribution-policy builder — Dafny model

This project models the step of the Application Gateway ingress controller's configuration
builder that turns policy-bound ingress backends into Application Gateway
load-distribution policies (`pkg/appgw/loaddistributionpolicy.go`). It has three parts:

- **Target resolver** (`Targets.GetTargets`, from `getTargets`). It walks a policy resource's
  declared targets in order and skips every target whose weight is below 1. Each remaining
  target is named `<policy>-target-<declaration index>`. It gets the Etag `"*"`, an ID from the
  target-ID synthesiser, and a reference to the backend address pool named from
  `"<backend namespace>-<service>"`, the port text and the port resolved for the backend. The
  targets are deduplicated in a map keyed by name, and the map is flattened in its iteration
  order.
- **Aggregator** (`Policies.GetLoadDistributionPolicies`, from `getLoadDistributionPolicies`).
  If the build-scoped cache is set, it returns the cached list verbatim. Otherwise it scans the
  backends and skips those that are not policy-bound. It dedups on the bare policy name: a name
  already in the map is skipped without a fetch. A failed fetch inserts nothing and does not
  stop the scan. Each kept policy gets a qualified name, an ID, the round-robin algorithm and
  its resolved targets. The map is flattened, and the cache is set to that exact list.
- **Entry point** (`LoadDistribution.LoadDistributionPolicy`). It sorts the list by policy name,
  stores it on the gateway and always returns no error.

Modelling choices:

- The collaborators are plain data, threaded through explicitly. The identifier synthesisers
  are function-typed fields of `Resources.Identifiers`. The backend-port lookup is a total
  function. The cluster's policy resources are a map, where a missing key is a fetch error.
  The cache is an explicit `Option<seq<Policy>>`, passed in and returned.
- Go leaves map iteration order unspecified. `Collections.Values` therefore picks an arbitrary
  key at every step, and every contract holds for every order.
- The input backends are a sequence in arbitrary order. Which backend wins a policy name is the
  pure fold `Policies.Winners`: the first backend whose fetch succeeds wins.
- `fmt.Sprint(name, "-target-", idx)` puts no spaces between its operands, because each
  adjacent pair includes a string. The target name is therefore the policy name, then
  `-target-`, then the decimal index. `Strings.Decimal` renders the index, and
  `Strings.ParseDecimal` is its inverse. That inverse makes target names injective in the index.
- Go compares strings byte-wise. Comparing code points (`Strings.NameLe`) gives the same order,
  because UTF-8 preserves code-point order.

Behaviour of the code worth knowing:

- Targets are never sorted. Their order inside a policy follows map iteration and is
  unspecified, so two builds from the same input can list a policy's targets in different
  orders. Only the policy list is sorted.
- Target names never collide, because they come from distinct declaration indices
  (`Targets.TargetNameInjective`). The name-keyed target map therefore never overwrites.
- Deduplication across backends is on the bare policy name. The first backend whose fetch
  succeeds wins, even when a later backend names a policy in another namespace
  (`Policies.CrossNamespaceCollapse`).
- Which of several backends bound to the same policy wins depends on the visit order
  (`Policies.VisitOrderPicksBackend`). Such backends may resolve to different backend ports,
  so the pool references of the built targets can depend on Go's map iteration order.
- The aggregator caches the slice before it is sorted. The entry point then sorts that slice
  in place, and its backing array is shared with the cache, so the cache ends up holding the
  sorted slice.

## Model

| member | source | states |
|---|---|---|
| Strings.Decimal | pkg/appgw/loaddistributionpolicy.go:89 | the index text is non-empty and all digits, has no leading zero (it starts with 0 only for index 0), and is one character exactly for indices below ten |
| Strings.DecimalRoundTrip | pkg/appgw/loaddistributionpolicy.go:89 | reading the rendered index back gives the index |
| Strings.DecimalInjective | pkg/appgw/loaddistributionpolicy.go:89 | distinct indices render differently |
| Collections.Values | pkg/appgw/loaddistributionpolicy.go:104-106 | flattening a map yields every key once, in some order, with its own value at the same position |
| Targets.TargetNameIndex | pkg/appgw/loaddistributionpolicy.go:89 | a target name is the policy name, then `-target-`, then digits that read back as the declaration index |
| Targets.MakeTarget | pkg/appgw/loaddistributionpolicy.go:87-100 | the target for declaration i has Etag "*", the declared weight, the name of index i, the ID `ldpTargetID(policy name, target name)`, and the ID of the pool named from "<backend namespace>-<service>", the port text and the backend's resolved port |
| Targets.TargetMap | pkg/appgw/loaddistributionpolicy.go:80-102 | every entry of the name-keyed map is stored under its own name and has weight at least 1 |
| Targets.TargetNameInjective | pkg/appgw/loaddistributionpolicy.go:89-101 | two declaration indices of one policy never share a target name, so the name-keyed map never overwrites |
| Targets.TargetMapContents | pkg/appgw/loaddistributionpolicy.go:80-102 | after the loop, the map holds the name of a declared target exactly when its weight is at least 1, with that target built from its own declaration, and holds nothing else |
| Targets.TargetMapSize | pkg/appgw/loaddistributionpolicy.go:80-102 | the map has one entry per declared target of valid weight |
| Targets.GetTargets | pkg/appgw/loaddistributionpolicy.go:76-108 | the output has one target per valid-weight declaration, built from it, and nothing else; names are distinct; its length is the number of valid-weight declarations |
| Targets.ResolvedTargetsValid | pkg/appgw/loaddistributionpolicy.go:82-95 | every output target has weight at least 1 and Etag "*" |
| Targets.InvalidTargetDropped | pkg/appgw/loaddistributionpolicy.go:82-86 | a declared target of weight below 1 has no output target with its name |
| Targets.ValidTargetExactlyOnce | pkg/appgw/loaddistributionpolicy.go:81-101 | a valid-weight declaration at index i appears in the output, and any output target named `<policy>-target-i` is that one |
| Targets.ExampleTwoTargetsOneDropped | pkg/appgw/loaddistributionpolicy.go:81-101 | policy ldp1 with svcA weight 3 and svcB weight 0 resolves to the single target ldp1-target-0 with weight 3 and svcA's pool |
| Policies.Winners | pkg/appgw/loaddistributionpolicy.go:36-62 | every entry of the name-keyed map comes from a backend in the input that is bound to that bare name, paired with the resource the fetch returned for it |
| Policies.WinnersKeys | pkg/appgw/loaddistributionpolicy.go:36-47 | a bare name is in the map exactly when some policy-bound backend names it and its fetch succeeds; each entry comes from such a backend and its fetched resource |
| Policies.WinnersFirst | pkg/appgw/loaddistributionpolicy.go:38-60 | for each name, the first backend whose fetch succeeds wins, whatever comes after it |
| Policies.WinnerNamesIgnoreOrder | pkg/appgw/loaddistributionpolicy.go:36-47 | the set of bare policy names does not depend on the order the backends are visited in; the qualified names can (see CrossNamespaceCollapse) |
| Policies.PolicyCountIgnoresOrder | pkg/appgw/loaddistributionpolicy.go:36-68 | the number of output policies does not depend on the order the backends are visited in |
| Policies.VisitOrderPicksBackend | pkg/appgw/loaddistributionpolicy.go:36-60 | of two backends bound to the same policy, whichever is visited first wins, so the winner depends on the visit order |
| Policies.CrossNamespaceCollapse | pkg/appgw/loaddistributionpolicy.go:38-60 | two namespaces' policies with the same bare name yield one entry, from the first backend |
| Policies.GetLoadDistributionPolicies | pkg/appgw/loaddistributionpolicy.go:29-73 | a set cache is returned verbatim and left unchanged; otherwise the result lists every winner's built policy once (qualified name, ID from that name, round robin, resolved targets), and the cache is set to exactly that list |
| Policies.AssembledCount | pkg/appgw/loaddistributionpolicy.go:64-68 | the flattened list has one policy per bare policy name |
| Policies.AssembledPoliciesValid | pkg/appgw/loaddistributionpolicy.go:49-59 | every built policy uses round robin, and all its targets have weight at least 1 |
| Policies.FirstContributorPresent | pkg/appgw/loaddistributionpolicy.go:43-47 | failed fetches for other backends do not stop a policy: the first backend that can fetch a name gets its policy in the output, built from its own resource |
| Policies.NoBoundBackendsEmpty | pkg/appgw/loaddistributionpolicy.go:37-64 | with no policy-bound backend, the result is empty, and the empty list is a possible result |
| Policies.DistinctPolicyNames | pkg/appgw/loaddistributionpolicy.go:40-49 | if no two policy-bound input backends with different bare names get the same qualified name, no two output policies share a name |
| Sorting.InsertByName | pkg/appgw/loaddistributionpolicy.go:23 | inserting into a name-sorted list keeps it sorted and adds exactly the inserted policy |
| Sorting.SortByName | pkg/appgw/loaddistributionpolicy.go:23 | the result is sorted by name and is a permutation of the input |
| Sorting.SortedUnique | pkg/appgw/loaddistributionpolicy.go:23 | with distinct names, two name-sorted permutations of the same policies are the same list |
| Sorting.DistinctNamesPermutation | pkg/appgw/loaddistributionpolicy.go:23 | rearranging a list with distinct names keeps them distinct |
| LoadDistribution.LoadDistributionPolicy | pkg/appgw/loaddistributionpolicy.go:20-27 | the error is always nil; the stored list is sorted by name and is a permutation of the aggregator's result (the cached list, or a freshly assembled one); the cache then holds the stored list; re-sorting a cached list that is already sorted and has distinct names changes nothing |
| LoadDistribution.StoredNamesDistinct | pkg/appgw/loaddistributionpolicy.go:20-27 | if no two policy-bound input backends with different bare names get the same qualified name, a freshly stored list has distinct names, so a second call on the cache it left stores it unchanged |

## Left out

- Fetching policy resources from the cluster (`GetLoadDistributionPolicy`) and klog logging.
  The store is a map from (namespace, name) to a policy resource, and a missing key stands for
  any fetch error.
- `newBackendIdsFiltered`, which is not part of this model. The backends are an input sequence
  in arbitrary order.
- The full `backendIdentifier` type, which is not part of this model. A backend is its namespace,
  its reference, and an uninterpreted `origin` standing for everything else (ingress, rule,
  path). Two backends that differ only in `origin` are distinct and may resolve to different
  backend ports. How Go compares the real identifiers, for example by pointer identity, is not
  modelled.
- `isLDPBackend`, which is not part of this model. A backend is policy-bound when it refers to a
  resource (`LdpRef`) rather than a service.
- The string formats of `generateLoadDistributionName`, `generateAddressPoolName`,
  `serviceBackendPortToStr`, `AddressPoolID`, `ldpTargetID` and `loadDistributionPolicyID`.
  Their definitions are not part of this model, so they are uninterpreted functions. The
  `"%v-%v"` prefix for the pool name is modelled literally.
- The `sorter.ByLoadDistributionPolicyName` implementation, which is not part of this model. It
  is specified as a name-sorted permutation with no stability promise. A functional insertion
  sort stands in for it.
- The `int32(target.Weight)` conversion. Weights are modelled as already in range, so there is
  no wrap-around.
- The zero value that `serviceBackendPairsByBackend` returns for a missing key. The backend-port
  lookup is a total function.
- A nil backend-port memo. Line 78 of `loaddistributionpolicy.go` dereferences
  `c.mem.serviceBackendPairsByBackend` without a nil check, so Go panics if no earlier builder step
  has set it and a policy-bound backend's fetch succeeds. The model assumes the memo is set, so
  `LoadDistribution.LoadDistributionPolicy` promises only that no error is returned, not that the
  step cannot panic.
- Whether the cache survives across calls. `getLoadDistributionPolicies` has a value receiver,
  and the type of `c.mem` is not shown. The cache is explicit state, passed in and returned.
- Nil versus empty slices. A policy with no valid target gets a nil Go slice, which the model
  treats as the empty sequence. The `ldps != nil` guard before sorting always holds in the
  model.
- The Azure SDK structs, whose fields may be nil, are flattened into plain values with no nil fields.

=== FILE: collections.dfy ===
/** Flattening a Go map into a slice with `for k, v := range m`. Go leaves the iteration
    order unspecified, so the order here is an arbitrary choice at every step. */
module Collections {

  /** The keys of `m` in some order, each once, with the values at the same positions. */
  method Values<K, V>(m: map<K, V>) returns (keys: seq<K>, vals: seq<V>)
    ensures |keys| == |vals| == |m|
    ensures forall i, j :: 0 <= i < j < |keys| ==> keys[i] != keys[j]
    ensures forall i :: 0 <= i < |keys| ==> keys[i] in m && vals[i] == m[keys[i]]
    ensures forall key :: key in m ==> key in keys
  {
    keys, vals := [], [];
    var rest := m.Keys;
    while rest != {}
      invariant |keys| == |vals|
      invariant |keys| + |rest| == |m|
      invariant rest <= m.Keys
      invariant forall i, j :: 0 <= i < j < |keys| ==> keys[i] != keys[j]
      invariant forall i :: 0 <= i < |keys| ==> keys[i] in m && keys[i] !in rest && vals[i] == m[keys[i]]
      invariant forall key :: key in m ==> key in rest || key in keys
      decreases rest
    {
      var key :| key in rest;
      keys, vals := keys + [key], vals + [m[key]];
      rest := rest - {key};
    }
  }
}

=== FILE: load_distribution.dfy ===
/** The builder step that fills in the gateway's load-distribution policies. */
module LoadDistribution {

  import opened Wrappers
  import opened Resources
  import opened Policies
  import opened Sorting

  /** LoadDistributionPolicy: aggregate (or take the cached list), sort by policy name and
      store the result on the gateway; the step never returns an error. `sort.Sort` permutes the slice
      in place, and that slice shares its backing array with the cache, so the cache ends up
      holding the sorted list too. */
  method LoadDistributionPolicy(bld: Builder, cache: Option<seq<Policy>>, backends: seq<BackendId>)
    returns (stored: seq<Policy>, cache': Option<seq<Policy>>, err: Option<string>)
    ensures err == None
    ensures SortedByName(stored)
    ensures cache' == Some(stored)
    ensures cache.Some? ==> multiset(stored) == multiset(cache.value)
    ensures cache.None? ==> exists ldps :: Assembled(bld, backends, ldps) && multiset(stored) == multiset(ldps)
    ensures cache.Some? && SortedByName(cache.value) && DistinctNames(cache.value) ==> stored == cache.value
  {
    var ldps, c := GetLoadDistributionPolicies(bld, cache, backends);
    stored := SortByName(ldps);
    if cache.Some? && SortedByName(cache.value) && DistinctNames(cache.value) {
      SortedUnique(cache.value, stored);
    }
    cache' := Some(stored);
    err := None;
  }

  /** When no two policy-bound backends of the input with different bare names get the same
      qualified name, a freshly built and sorted list has distinct names, so a second call
      on the cache it left stores it unchanged. */
  lemma StoredNamesDistinct(bld: Builder, backends: seq<BackendId>, ldps: seq<Policy>, stored: seq<Policy>)
    requires Assembled(bld, backends, ldps)
    requires multiset(stored) == multiset(ldps)
    requires forall b1, b2 :: b1 in backends && b2 in backends && IsLdpBackend(b1) && IsLdpBackend(b2)
               && bld.ids.loadDistributionName(b1.namespace, b1.backend.policyName)
                  == bld.ids.loadDistributionName(b2.namespace, b2.backend.policyName)
               ==> b1.backend.policyName == b2.backend.policyName
    ensures DistinctNames(stored)
  {
    DistinctPolicyNames(bld, backends, ldps);
    DistinctNamesPermutation(ldps, stored);
  }
}

=== FILE: policies.dfy ===
/** The policy aggregator: scans the backends of one configuration build, fetches each
    policy name's resource once, and builds one Application Gateway policy per name. The
    result is memoised in a build-scoped cache threaded through explicitly. */
module Policies {

  import opened Wrappers
  import opened Resources
  import opened Targets
  import Collections

  /** The backend that won a policy name, and the policy resource fetched for it. */
  datatype Source = Source(backend: BackendId, policy: K8sPolicy)

  /** Backend `b` is bound to policy `name` and that policy's fetch succeeds. */
  predicate Contributes(store: map<PolicyKey, K8sPolicy>, b: BackendId, name: string) {
    b.backend == LdpRef(name) && PolicyKey(b.namespace, name) in store
  }

  /** The name-keyed map of winners after scanning `bs` in order. Keys are the bare policy
      names; a name already present is skipped, and a failed fetch inserts nothing. */
  function Winners(store: map<PolicyKey, K8sPolicy>, bs: seq<BackendId>): (r: map<string, Source>)
    ensures forall name :: name in r ==>
              && r[name].backend in bs
              && Contributes(store, r[name].backend, name)
              && r[name].policy == store[PolicyKey(r[name].backend.namespace, name)]
    decreases |bs|
  {
    if |bs| == 0 then map[] else Visit(store, Winners(store, bs[..|bs| - 1]), bs[|bs| - 1])
  }

  /** One step of the scan: backend `b` is skipped unless it is policy-bound, its name is not
      yet in the map, and its fetch succeeds; then it is inserted under its bare name. */
  function Visit(store: map<PolicyKey, K8sPolicy>, m: map<string, Source>, b: BackendId): map<string, Source> {
    match b.backend
    case ServiceRef(_, _) => m
    case LdpRef(name) =>
      if name in m then m
      else match Fetch(store, b.namespace, name)
        case None => m
        case Some(k) => m[name := Source(b, k)]
  }

  /** A name has a winner exactly when some backend contributes it, and the winner is a
      backend contributing that name together with its fetched resource. */
  lemma {:induction false} WinnersKeys(store: map<PolicyKey, K8sPolicy>, bs: seq<BackendId>)
    ensures forall name :: name in Winners(store, bs) <==>
              exists i :: 0 <= i < |bs| && Contributes(store, bs[i], name)
    ensures forall name :: name in Winners(store, bs) ==>
              var src := Winners(store, bs)[name];
              && src.backend in bs
              && Contributes(store, src.backend, name)
              && src.policy == store[PolicyKey(src.backend.namespace, name)]
    decreases |bs|
  {
    if |bs| > 0 {
      var pre := bs[..|bs| - 1];
      WinnersKeys(store, pre);
      forall name | (exists i :: 0 <= i < |bs| && Contributes(store, bs[i], name))
        ensures name in Winners(store, bs)
      {
        var i :| 0 <= i < |bs| && Contributes(store, bs[i], name);
        if i < |bs| - 1 {
          assert pre[i] == bs[i];
        }
      }
      forall name | name in Winners(store, bs)
        ensures exists i :: 0 <= i < |bs| && Contributes(store, bs[i], name)
      {
        if name in Winners(store, pre) {
          var i :| 0 <= i < |pre| && Contributes(store, pre[i], name);
          assert bs[i] == pre[i];
        } else {
          assert Contributes(store, bs[|bs| - 1], name);
        }
      }
      forall name | name in Winners(store, bs)
        ensures Winners(store, bs)[name].backend in bs
      {
        if name in Winners(store, pre) {
          assert Winners(store, pre)[name].backend in pre;
        }
      }
    }
  }

  /** First successful fetch wins: the earliest backend that contributes a name is the one
      whose resource the output is built from, whatever follows it. */
  lemma {:induction false} WinnersFirst(store: map<PolicyKey, K8sPolicy>, bs: seq<BackendId>, i: nat, name: string)
    requires i < |bs| && Contributes(store, bs[i], name)
    requires forall j :: 0 <= j < i ==> !Contributes(store, bs[j], name)
    ensures name in Winners(store, bs)
    ensures Winners(store, bs)[name] == Source(bs[i], store[PolicyKey(bs[i].namespace, name)])
    decreases |bs|
  {
    var pre := bs[..|bs| - 1];
    if i < |bs| - 1 {
      WinnersFirst(store, pre, i, name);
    } else {
      WinnersKeys(store, pre);
      assert forall j :: 0 <= j < |pre| ==> pre[j] == bs[j];
      assert name !in Winners(store, pre);
    }
  }

  /** The set of bare policy names keyed in the map does not depend on the order the
      backends are visited in (Go's map iteration order). The qualified names can: see
      `CrossNamespaceCollapse`. */
  lemma WinnerNamesIgnoreOrder(store: map<PolicyKey, K8sPolicy>, bs1: seq<BackendId>, bs2: seq<BackendId>)
    requires multiset(bs1) == multiset(bs2)
    ensures Winners(store, bs1).Keys == Winners(store, bs2).Keys
  {
    WinnersKeys(store, bs1);
    WinnersKeys(store, bs2);
    forall name | name in Winners(store, bs1)
      ensures name in Winners(store, bs2)
    {
      var i :| 0 <= i < |bs1| && Contributes(store, bs1[i], name);
      assert bs1[i] in multiset(bs2);
      var j :| 0 <= j < |bs2| && bs2[j] == bs1[i];
    }
    forall name | name in Winners(store, bs2)
      ensures name in Winners(store, bs1)
    {
      var i :| 0 <= i < |bs2| && Contributes(store, bs2[i], name);
      assert bs2[i] in multiset(bs1);
      var j :| 0 <= j < |bs1| && bs1[j] == bs2[i];
    }
  }

  /** Deduplication is on the bare policy name: a second namespace's policy of the same
      name is dropped even though its fetch succeeds. */
  lemma CrossNamespaceCollapse(store: map<PolicyKey, K8sPolicy>, b1: BackendId, b2: BackendId, name: string)
    requires Contributes(store, b1, name) && Contributes(store, b2, name)
    requires b1.namespace != b2.namespace
    ensures Winners(store, [b1, b2]).Keys == {name}
    ensures Winners(store, [b1, b2])[name].backend == b1
  {
  }

  /** Which of two backends bound to the same policy wins depends on the visit order. When
      they resolve to different backend ports, the pool references of the built targets
      differ too, so the output depends on Go's map iteration order. */
  lemma VisitOrderPicksBackend(store: map<PolicyKey, K8sPolicy>, b1: BackendId, b2: BackendId, name: string)
    requires Contributes(store, b1, name) && Contributes(store, b2, name)
    ensures Winners(store, [b1, b2])[name].backend == b1
    ensures Winners(store, [b2, b1])[name].backend == b2
  {
  }

  /** The gateway policy `pol` is the one built for bare name `name` from `src`. */
  ghost predicate BuiltFrom(bld: Builder, name: string, src: Source, pol: Policy) {
    && pol.name == bld.ids.loadDistributionName(src.backend.namespace, name)
    && pol.id == bld.ids.loadDistributionPolicyId(pol.name)
    && pol.algorithm == RoundRobin
    && ResolvedTargets(bld, src.backend, src.policy, pol.targets)
  }

  /** `ldps` lists one built policy per winner, in the order of `keys`, which visits every
      winner's name exactly once. */
  ghost predicate EnumeratedBy(bld: Builder, winners: map<string, Source>, keys: seq<string>, ldps: seq<Policy>) {
    && |keys| == |ldps|
    && (forall i, j :: 0 <= i < j < |keys| ==> keys[i] != keys[j])
    && (forall name :: name in winners ==> name in keys)
    && (forall i :: 0 <= i < |keys| ==> keys[i] in winners && BuiltFrom(bld, keys[i], winners[keys[i]], ldps[i]))
  }

  /** `ldps` is a possible result of aggregating `bs`: the built winners in some order. */
  ghost predicate Assembled(bld: Builder, bs: seq<BackendId>, ldps: seq<Policy>) {
    exists keys :: EnumeratedBy(bld, Winners(bld.store, bs), keys, ldps)
  }

  /** The policy map holds, for every winner's name, the policy built from that winner. */
  ghost predicate MapBuiltFrom(bld: Builder, winners: map<string, Source>, policyMap: map<string, Policy>) {
    && policyMap.Keys == winners.Keys
    && forall name :: name in policyMap ==> BuiltFrom(bld, name, winners[name], policyMap[name])
  }

  /** One more backend visited: the winners change only as the loop body changes the map. */
  lemma WinnersStep(store: map<PolicyKey, K8sPolicy>, bs: seq<BackendId>, i: nat)
    requires i < |bs|
    ensures Winners(store, bs[..i + 1]) == Visit(store, Winners(store, bs[..i]), bs[i])
  {
    assert bs[..i + 1][..i] == bs[..i];
  }

  /** Flattening a map of built policies lists every winner's policy once. */
  lemma FlattenedMapEnumerates(
    bld: Builder, winners: map<string, Source>, policyMap: map<string, Policy>,
    keys: seq<string>, ldps: seq<Policy>)
    requires MapBuiltFrom(bld, winners, policyMap)
    requires |keys| == |ldps|
    requires forall i, j :: 0 <= i < j < |keys| ==> keys[i] != keys[j]
    requires forall i :: 0 <= i < |keys| ==> keys[i] in policyMap && ldps[i] == policyMap[keys[i]]
    requires forall key :: key in policyMap ==> key in keys
    ensures exists keys' :: EnumeratedBy(bld, winners, keys', ldps)
  {
    assert EnumeratedBy(bld, winners, keys, ldps);
  }

  /** getLoadDistributionPolicies. A cached list is returned verbatim and the cache is left
      alone; otherwise the winners are built into a name-keyed map, flattened in the map's
      iteration order, and the cache is set to exactly that list. */
  method GetLoadDistributionPolicies(bld: Builder, cache: Option<seq<Policy>>, backends: seq<BackendId>)
    returns (ldps: seq<Policy>, cache': Option<seq<Policy>>)
    ensures cache.Some? ==> ldps == cache.value && cache' == cache
    ensures cache.None? ==> cache' == Some(ldps) && Assembled(bld, backends, ldps)
  {
    if cache.Some? {
      return cache.value, cache;
    }
    var policyMap: map<string, Policy> := map[];
    var i := 0;
    while i < |backends|
      invariant 0 <= i <= |backends|
      invariant MapBuiltFrom(bld, Winners(bld.store, backends[..i]), policyMap)
    {
      var b := backends[i];
      WinnersStep(bld.store, backends, i);
      if b.backend.LdpRef? {
        var ldpName := b.backend.policyName;
        if ldpName !in policyMap {
          var fetched := Fetch(bld.store, b.namespace, ldpName);
          if fetched.Some? {
            var resourceName := bld.ids.loadDistributionName(b.namespace, ldpName);
            var resourceId := bld.ids.loadDistributionPolicyId(resourceName);
            var targets := GetTargets(bld, b, fetched.value);
            policyMap := policyMap[ldpName := Policy(resourceName, resourceId, RoundRobin, targets)];
          }
        }
      }
      i := i + 1;
    }
    assert backends[..|backends|] == backends;
    var keys;
    keys, ldps := Collections.Values(policyMap);
    FlattenedMapEnumerates(bld, Winners(bld.store, backends), policyMap, keys, ldps);
    cache' := Some(ldps);
  }

  /** One policy per winner. */
  lemma AssembledCount(bld: Builder, bs: seq<BackendId>, ldps: seq<Policy>)
    requires Assembled(bld, bs, ldps)
    ensures |ldps| == |Winners(bld.store, bs)|
  {
    var w := Winners(bld.store, bs);
    var keys :| EnumeratedBy(bld, w, keys, ldps);
    DistinctKeysCoverMap(w, keys);
  }

  /** Every output policy uses round robin and carries only targets of weight at least one. */
  lemma AssembledPoliciesValid(bld: Builder, bs: seq<BackendId>, ldps: seq<Policy>)
    requires Assembled(bld, bs, ldps)
    ensures forall i :: 0 <= i < |ldps| ==> ldps[i].algorithm == RoundRobin
    ensures forall i, t :: 0 <= i < |ldps| && t in ldps[i].targets ==> t.weightPerServer >= 1
  {
  }

  /** The number of output policies does not depend on the visit order. */
  lemma PolicyCountIgnoresOrder(
    bld: Builder, bs1: seq<BackendId>, bs2: seq<BackendId>, ldps1: seq<Policy>, ldps2: seq<Policy>)
    requires multiset(bs1) == multiset(bs2)
    requires Assembled(bld, bs1, ldps1) && Assembled(bld, bs2, ldps2)
    ensures |ldps1| == |ldps2|
  {
    WinnerNamesIgnoreOrder(bld.store, bs1, bs2);
    AssembledCount(bld, bs1, ldps1);
    AssembledCount(bld, bs2, ldps2);
  }

  /** A duplicate-free listing of every key of a map has the map's size. */
  lemma DistinctKeysCoverMap<V>(m: map<string, V>, keys: seq<string>)
    requires forall i, j :: 0 <= i < j < |keys| ==> keys[i] != keys[j]
    requires forall i :: 0 <= i < |keys| ==> keys[i] in m
    requires forall name :: name in m ==> name in keys
    ensures |keys| == |m|
  {
    var ks := set i | 0 <= i < |keys| :: keys[i];
    assert ks == m.Keys;
    DistinctSeqCard(keys);
  }

  lemma {:induction false} DistinctSeqCard(keys: seq<string>)
    requires forall i, j :: 0 <= i < j < |keys| ==> keys[i] != keys[j]
    ensures |set i | 0 <= i < |keys| :: keys[i]| == |keys|
    decreases |keys|
  {
    if |keys| > 0 {
      var pre := keys[..|keys| - 1];
      DistinctSeqCard(pre);
      var s := set i | 0 <= i < |keys| :: keys[i];
      var s' := set i | 0 <= i < |pre| :: pre[i];
      assert s == s' + {keys[|keys| - 1]};
      assert keys[|keys| - 1] !in s';
    }
  }

  /** A fetch that fails elsewhere does not stop a policy: the first backend that
      contributes a name gets its policy in the output, built from its own resource. */
  lemma FirstContributorPresent(bld: Builder, bs: seq<BackendId>, ldps: seq<Policy>, i: nat, name: string)
    requires Assembled(bld, bs, ldps)
    requires i < |bs| && Contributes(bld.store, bs[i], name)
    requires forall j :: 0 <= j < i ==> !Contributes(bld.store, bs[j], name)
    ensures exists p :: p in ldps &&
              BuiltFrom(bld, name, Source(bs[i], bld.store[PolicyKey(bs[i].namespace, name)]), p)
  {
    var w := Winners(bld.store, bs);
    var keys :| EnumeratedBy(bld, w, keys, ldps);
    WinnersFirst(bld.store, bs, i, name);
    var q :| 0 <= q < |keys| && keys[q] == name;
    assert ldps[q] in ldps;
  }

  /** Only policy-bound backends contribute: with none, the only possible result is empty. */
  lemma NoBoundBackendsEmpty(bld: Builder, bs: seq<BackendId>, ldps: seq<Policy>)
    requires forall b :: b in bs ==> !IsLdpBackend(b)
    ensures Assembled(bld, bs, ldps) <==> ldps == []
  {
    WinnersKeys(bld.store, bs);
    var w := Winners(bld.store, bs);
    assert w == map[];
    if Assembled(bld, bs, ldps) {
      AssembledCount(bld, bs, ldps);
    }
    if ldps == [] {
      assert EnumeratedBy(bld, w, [], ldps);
    }
  }

  /** The output holds one policy per bare name. When no two policy-bound backends of the
      input with different bare names get the same qualified name, no two output policies
      share a name. */
  lemma DistinctPolicyNames(bld: Builder, bs: seq<BackendId>, ldps: seq<Policy>)
    requires Assembled(bld, bs, ldps)
    requires forall b1, b2 :: b1 in bs && b2 in bs && IsLdpBackend(b1) && IsLdpBackend(b2)
               && bld.ids.loadDistributionName(b1.namespace, b1.backend.policyName)
                  == bld.ids.loadDistributionName(b2.namespace, b2.backend.policyName)
               ==> b1.backend.policyName == b2.backend.policyName
    ensures forall i, j :: 0 <= i < j < |ldps| ==> ldps[i].name != ldps[j].name
  {
  }
}

=== FILE: resources.dfy ===
/** The inputs and outputs of the load-distribution-policy builder, flattened from the
    Kubernetes custom resource and the Azure SDK structs, plus the collaborators the
    builder consults. */
module Resources {

  import opened Wrappers

  /** A Kubernetes service port: by name or by number. */
  datatype ServicePort = ServicePort(name: string, number: int)

  /** What an ingress backend points at: a service, or a resource. A backend is
      policy-bound exactly when it refers to a load-distribution-policy resource. */
  datatype BackendRef =
    | ServiceRef(service: string, port: ServicePort)
    | LdpRef(policyName: string)

  /** One backend of the ingress configuration: its namespace, what it points at, and
      `origin`, which stands for the rest of the identifier (ingress, rule, path). Two
      backends that differ only in `origin` are distinct set members and may resolve to
      different backend ports. */
  datatype BackendId = BackendId(namespace: string, backend: BackendRef, origin: int)

  predicate IsLdpBackend(b: BackendId) {
    b.backend.LdpRef?
  }

  /** A declared target of a policy resource: a service, a port and a weight. */
  datatype PolicyTarget = PolicyTarget(service: string, port: ServicePort, weight: int)

  /** The load-distribution-policy resource as stored in the cluster. */
  datatype K8sPolicy = K8sPolicy(name: string, targets: seq<PolicyTarget>)

  /** Where a policy resource is looked up in the cluster. */
  datatype PolicyKey = PolicyKey(namespace: string, name: string)

  /** An Application Gateway load-distribution target. */
  datatype Target = Target(
    etag: string,
    name: string,
    id: string,
    weightPerServer: int,
    backendAddressPoolId: string)

  /** The algorithms Application Gateway offers for a load-distribution policy. */
  datatype Algorithm = RoundRobin | LeastConnections | IpHash

  /** An Application Gateway load-distribution policy. */
  datatype Policy = Policy(name: string, id: string, algorithm: Algorithm, targets: seq<Target>)

  /** The identifier synthesisers shared with the rest of the configuration build. Their
      string formats belong to other files, so they are left uninterpreted. */
  datatype Identifiers = Identifiers(
    loadDistributionName: (string, string) -> string,   // (namespace, policy name)
    loadDistributionPolicyId: string -> string,         // qualified policy name
    addressPoolName: (string, string, int) -> string,   // ("<ns>-<service>", port text, backend port)
    addressPoolId: string -> string,                     // pool name
    ldpTargetId: (string, string) -> string,            // (policy name, target name)
    portToStr: ServicePort -> string)

  /** What one configuration build reads: the identifier synthesisers, the backend port
      resolved for each backend, and the cluster's policy resources. */
  datatype Builder = Builder(
    ids: Identifiers,
    backendPort: BackendId -> int,
    store: map<PolicyKey, K8sPolicy>)

  /** Fetch a policy resource; `None` stands for any error the fetch reports. */
  function Fetch(store: map<PolicyKey, K8sPolicy>, namespace: string, name: string): Option<K8sPolicy> {
    var key := PolicyKey(namespace, name);
    if key in store then Some(store[key]) else None
  }
}

=== FILE: sorting.dfy ===
/** Ordering of gateway policies by name, as the entry point sorts them before storing. */
module Sorting {

  import opened Strings
  import opened Resources

  predicate SortedByName(s: seq<Policy>) {
    forall i, j :: 0 <= i < j < |s| ==> NameLe(s[i].name, s[j].name)
  }

  /** No two policies in `s` share a name. */
  predicate DistinctNames(s: seq<Policy>) {
    forall i, j :: 0 <= i < j < |s| ==> s[i].name != s[j].name
  }

  /** Insert `p` into a list already sorted by name. */
  function InsertByName(p: Policy, s: seq<Policy>): (r: seq<Policy>)
    requires SortedByName(s)
    ensures SortedByName(r)
    ensures multiset(r) == multiset(s) + multiset{p}
    decreases |s|
  {
    if |s| == 0 then [p]
    else if NameLe(p.name, s[0].name) then
      assert forall j :: 0 <= j < |s| ==> NameLe(p.name, s[j].name) by {
        forall j | 0 <= j < |s| ensures NameLe(p.name, s[j].name) {
          if j > 0 { NameLeTransitive(p.name, s[0].name, s[j].name); }
        }
      }
      [p] + s
    else
      assert s == [s[0]] + s[1..];
      var rest := InsertByName(p, s[1..]);
      assert forall x :: x in rest ==> NameLe(s[0].name, x.name) by {
        forall x | x in rest ensures NameLe(s[0].name, x.name) {
          assert x in multiset(rest);
          if x == p {
            NameLeTotal(p.name, s[0].name);
          } else {
            assert x in multiset(s[1..]);
            var j :| 0 <= j < |s[1..]| && s[1..][j] == x;
            assert s[j + 1] == x;
          }
        }
      }
      assert forall j :: 0 <= j < |rest| ==> rest[j] in rest;
      [s[0]] + rest
  }

  /** A permutation of `s` sorted by name. Go's `sort.Sort` is not stable, so nothing is
      promised about the relative order of equal names. */
  function SortByName(s: seq<Policy>): (r: seq<Policy>)
    ensures SortedByName(r)
    ensures multiset(r) == multiset(s)
    decreases |s|
  {
    if |s| == 0 then []
    else
      assert s == [s[0]] + s[1..];
      InsertByName(s[0], SortByName(s[1..]))
  }

  /** When names are distinct, the sorted arrangement of a collection is unique: two
      sorted permutations of the same policies are the same list. */
  lemma {:induction false} SortedUnique(a: seq<Policy>, b: seq<Policy>)
    requires SortedByName(a) && SortedByName(b)
    requires multiset(a) == multiset(b)
    requires DistinctNames(a)
    ensures a == b
    decreases |a|
  {
    if |a| == 0 {
      assert |multiset(b)| == 0;
    } else {
      assert |b| == |multiset(b)| == |multiset(a)| == |a|;
      assert a[0] in multiset(b) && b[0] in multiset(a);
      var j :| 0 <= j < |b| && b[j] == a[0];
      var i :| 0 <= i < |a| && a[i] == b[0];
      assert NameLe(b[0].name, a[0].name) by {
        if j > 0 { assert NameLe(b[0].name, b[j].name); } else { NameLeTotal(b[0].name, b[0].name); }
      }
      assert NameLe(a[0].name, b[0].name) by {
        if i > 0 { assert NameLe(a[0].name, a[i].name); } else { NameLeTotal(a[0].name, a[0].name); }
      }
      NameLeAntisymmetric(a[0].name, b[0].name);
      assert i == 0;
      assert a == [a[0]] + a[1..];
      assert b == [b[0]] + b[1..];
      assert multiset(a) == multiset{a[0]} + multiset(a[1..]);
      assert multiset(b) == multiset{a[0]} + multiset(b[1..]);
      assert multiset(a[1..]) == multiset(a) - multiset{a[0]};
      assert multiset(b[1..]) == multiset(b) - multiset{a[0]};
      SortedUnique(a[1..], b[1..]);
    }
  }

  /** With distinct names, no policy occurs twice. */
  lemma {:induction false} DistinctNamesOnce(a: seq<Policy>)
    requires DistinctNames(a)
    ensures forall x :: multiset(a)[x] <= 1
    decreases |a|
  {
    if |a| > 0 {
      var pre := a[..|a| - 1];
      DistinctNamesOnce(pre);
      assert a == pre + [a[|a| - 1]];
      assert a[|a| - 1] !in pre;
    }
  }

  /** A policy at two positions occurs at least twice. */
  lemma TwiceCounted(b: seq<Policy>, i: nat, j: nat)
    requires i < j < |b| && b[i] == b[j]
    ensures multiset(b)[b[j]] >= 2
  {
    assert b == b[..j] + [b[j]] + b[j + 1..];
    assert b[i] in b[..j];
  }

  /** Distinct names survive any rearrangement. */
  lemma DistinctNamesPermutation(a: seq<Policy>, b: seq<Policy>)
    requires multiset(a) == multiset(b)
    requires DistinctNames(a)
    ensures DistinctNames(b)
  {
    DistinctNamesOnce(a);
    forall i, j | 0 <= i < j < |b|
      ensures b[i].name != b[j].name
    {
      if b[i] == b[j] {
        TwiceCounted(b, i, j);
      } else {
        assert b[i] in multiset(a) && b[j] in multiset(a);
        var p :| 0 <= p < |a| && a[p] == b[i];
        var q :| 0 <= q < |a| && a[q] == b[j];
        assert p != q;
      }
    }
  }
}

=== FILE: strings.dfy ===
/** String helpers the builder relies on: decimal rendering of an index (as `fmt.Sprint`
    prints an `int`) and the byte-wise ordering Go uses for `<` on strings. */
module Strings {

  /** The ASCII digit for `d`. */
  function DigitChar(d: nat): char
    requires d < 10
  {
    (48 + d) as char
  }

  /** Decimal rendering of `n`: most significant digit first, no sign, no leading zeros. */
  function Decimal(n: nat): (s: string)
    ensures |s| >= 1
    ensures (|s| == 1) <==> (n < 10)
    ensures forall i :: 0 <= i < |s| ==> '0' <= s[i] <= '9'
    ensures s[0] == '0' ==> n == 0
    decreases n
  {
    if n < 10 then [DigitChar(n)] else Decimal(n / 10) + [DigitChar(n % 10)]
  }

  /** Reads a string of decimal digits back into a number (the inverse of `Decimal`). */
  function ParseDecimal(s: string): nat
    requires forall i :: 0 <= i < |s| ==> '0' <= s[i] <= '9'
    decreases |s|
  {
    if |s| == 0 then 0
    else ParseDecimal(s[..|s| - 1]) * 10 + (s[|s| - 1] as int - 48)
  }

  /** Rendering then reading gives the number back. */
  lemma {:induction false} DecimalRoundTrip(n: nat)
    ensures ParseDecimal(Decimal(n)) == n
    decreases n
  {
    var s := Decimal(n);
    if n < 10 {
      assert s[..0] == [];
    } else {
      DecimalRoundTrip(n / 10);
      assert s[..|s| - 1] == Decimal(n / 10);
    }
  }

  /** Distinct numbers have distinct renderings. */
  lemma DecimalInjective(a: nat, b: nat)
    requires Decimal(a) == Decimal(b)
    ensures a == b
  {
    DecimalRoundTrip(a);
    DecimalRoundTrip(b);
  }

  /** `a <= b` on Go strings: lexicographic on characters, a proper prefix first. Comparing
      code points orders strings the same way as comparing their UTF-8 bytes. */
  predicate NameLe(a: string, b: string)
    decreases |a|
  {
    |a| == 0 || (|b| > 0 && (a[0] < b[0] || (a[0] == b[0] && NameLe(a[1..], b[1..]))))
  }

  lemma {:induction false} NameLeTotal(a: string, b: string)
    ensures NameLe(a, b) || NameLe(b, a)
    decreases |a|
  {
    if |a| > 0 && |b| > 0 && a[0] == b[0] {
      NameLeTotal(a[1..], b[1..]);
    }
  }

  lemma {:induction false} NameLeTransitive(a: string, b: string, c: string)
    requires NameLe(a, b) && NameLe(b, c)
    ensures NameLe(a, c)
    decreases |a|
  {
    if |a| > 0 && a[0] == b[0] && b[0] == c[0] {
      NameLeTransitive(a[1..], b[1..], c[1..]);
    }
  }

  lemma {:induction false} NameLeAntisymmetric(a: string, b: string)
    requires NameLe(a, b) && NameLe(b, a)
    ensures a == b
    decreases |a|
  {
    if |a| > 0 {
      NameLeAntisymmetric(a[1..], b[1..]);
      assert a == [a[0]] + a[1..];
      assert b == [b[0]] + b[1..];
    }
  }
}

=== FILE: targets.dfy ===
/** The target resolver: turns the declared targets of one policy resource into
    Application Gateway load-distribution targets for the backend it is attached to. */
module Targets {

  import opened Strings
  import opened Resources
  import Collections

  /** The gateway accepts only weights of at least one. */
  predicate ValidWeight(t: PolicyTarget) {
    t.weight >= 1
  }

  /** Number of declared targets with a valid weight. */
  function CountValid(ts: seq<PolicyTarget>): nat
    decreases |ts|
  {
    if |ts| == 0 then 0
    else CountValid(ts[..|ts| - 1]) + (if ValidWeight(ts[|ts| - 1]) then 1 else 0)
  }

  /** `<policy name>-target-<declaration index>`. */
  function TargetName(policyName: string, index: nat): string {
    policyName + "-target-" + Decimal(index)
  }

  /** A target name is the policy name, the fixed infix, and digits that read back as the
      declaration index. */
  lemma TargetNameIndex(policyName: string, index: nat)
    ensures |TargetName(policyName, index)| > |policyName| + 8
    ensures TargetName(policyName, index)[..|policyName|] == policyName
    ensures TargetName(policyName, index)[|policyName|..|policyName| + 8] == "-target-"
    ensures TargetName(policyName, index)[|policyName| + 8..] == Decimal(index)
    ensures ParseDecimal(TargetName(policyName, index)[|policyName| + 8..]) == index
  {
  }

  /** Two declaration indices never share a target name. */
  lemma TargetNameInjective(policyName: string, i: nat, j: nat)
    requires TargetName(policyName, i) == TargetName(policyName, j)
    ensures i == j
  {
    TargetNameIndex(policyName, i);
    TargetNameIndex(policyName, j);
  }

  /** The address pool that the backend-pool builder creates for this target's service and
      port: named from "<backend namespace>-<service>", the port text and the port resolved
      for the backend. */
  function PoolId(bld: Builder, b: BackendId, t: PolicyTarget): string {
    var poolName :=
      bld.ids.addressPoolName(b.namespace + "-" + t.service, bld.ids.portToStr(t.port), bld.backendPort(b));
    bld.ids.addressPoolId(poolName)
  }

  /** The gateway target built from the declared target at index `i`: wildcard Etag, the
      declared weight, a name that encodes the declaration index, an ID derived from the
      policy and that name, and the pool of the declared service and port for this backend. */
  function MakeTarget(bld: Builder, b: BackendId, k: K8sPolicy, i: nat): (r: Target)
    requires i < |k.targets|
    ensures r.etag == "*" && r.weightPerServer == k.targets[i].weight
    ensures r.name == TargetName(k.name, i)
    ensures r.id == bld.ids.ldpTargetId(k.name, r.name)
    ensures r.backendAddressPoolId == PoolId(bld, b, k.targets[i])
  {
    var name := TargetName(k.name, i);
    Target("*", name, bld.ids.ldpTargetId(k.name, name), k.targets[i].weight, PoolId(bld, b, k.targets[i]))
  }

  /** The name-keyed map after the first `n` declared targets have been visited. */
  function TargetMap(bld: Builder, b: BackendId, k: K8sPolicy, n: nat): (m: map<string, Target>)
    requires n <= |k.targets|
    ensures forall key :: key in m ==> m[key].weightPerServer >= 1 && m[key].name == key
  {
    if n == 0 then map[]
    else
      var m := TargetMap(bld, b, k, n - 1);
      if ValidWeight(k.targets[n - 1]) then m[TargetName(k.name, n - 1) := MakeTarget(bld, b, k, n - 1)] else m
  }

  /** The map holds exactly the valid targets among the first `n`, keyed by their names. */
  lemma {:induction false} TargetMapContents(bld: Builder, b: BackendId, k: K8sPolicy, n: nat)
    requires n <= |k.targets|
    ensures forall i :: 0 <= i < n ==>
              (TargetName(k.name, i) in TargetMap(bld, b, k, n) <==> ValidWeight(k.targets[i]))
    ensures forall i :: 0 <= i < n && ValidWeight(k.targets[i]) ==>
              TargetMap(bld, b, k, n)[TargetName(k.name, i)] == MakeTarget(bld, b, k, i)
    ensures forall key :: key in TargetMap(bld, b, k, n) ==>
              exists i :: 0 <= i < n && ValidWeight(k.targets[i]) && key == TargetName(k.name, i)
  {
    if n > 0 {
      TargetMapContents(bld, b, k, n - 1);
      var m := TargetMap(bld, b, k, n - 1);
      var m' := TargetMap(bld, b, k, n);
      var key := TargetName(k.name, n - 1);
      forall i | 0 <= i < n - 1
        ensures TargetName(k.name, i) != key
      {
        if TargetName(k.name, i) == key {
          TargetNameInjective(k.name, i, n - 1);
        }
      }
      forall i | 0 <= i < n
        ensures TargetName(k.name, i) in m' <==> ValidWeight(k.targets[i])
        ensures ValidWeight(k.targets[i]) ==> m'[TargetName(k.name, i)] == MakeTarget(bld, b, k, i)
      {
      }
      forall key' | key' in m'
        ensures exists i :: 0 <= i < n && ValidWeight(k.targets[i]) && key' == TargetName(k.name, i)
      {
        if key' != key {
          assert key' in m;
        }
      }
    }
  }

  /** One map entry per valid declared target. */
  lemma {:induction false} TargetMapSize(bld: Builder, b: BackendId, k: K8sPolicy, n: nat)
    requires n <= |k.targets|
    ensures |TargetMap(bld, b, k, n)| == CountValid(k.targets[..n])
  {
    if n > 0 {
      TargetMapSize(bld, b, k, n - 1);
      assert k.targets[..n][..n - 1] == k.targets[..n - 1];
      var m := TargetMap(bld, b, k, n - 1);
      var key := TargetName(k.name, n - 1);
      if key in m {
        TargetMapContents(bld, b, k, n - 1);
        var i :| 0 <= i < n - 1 && ValidWeight(k.targets[i]) && key == TargetName(k.name, i);
        TargetNameInjective(k.name, i, n - 1);
      }
    }
  }

  /** What the resolver promises for `ts`, in any order: one target per declared target of
      valid weight, built from that declaration, and nothing else; no two share a name. */
  ghost predicate ResolvedTargets(bld: Builder, b: BackendId, k: K8sPolicy, ts: seq<Target>) {
    && |ts| == CountValid(k.targets)
    && (forall i, j :: 0 <= i < j < |ts| ==> ts[i].name != ts[j].name)
    && (forall t :: t in ts ==>
          exists i :: 0 <= i < |k.targets| && ValidWeight(k.targets[i]) && t == MakeTarget(bld, b, k, i))
    && (forall i :: 0 <= i < |k.targets| && ValidWeight(k.targets[i]) ==> MakeTarget(bld, b, k, i) in ts)
  }

  /** getTargets: skip declared targets of weight below one, build the rest, dedup them by
      target name in a map, and flatten the map in its (unspecified) iteration order. */
  method GetTargets(bld: Builder, b: BackendId, k: K8sPolicy) returns (ts: seq<Target>)
    ensures ResolvedTargets(bld, b, k, ts)
  {
    var targetMap: map<string, Target> := map[];
    var idx := 0;
    while idx < |k.targets|
      invariant 0 <= idx <= |k.targets|
      invariant targetMap == TargetMap(bld, b, k, idx)
    {
      if k.targets[idx].weight >= 1 {
        var name := TargetName(k.name, idx);
        var target := Target(
          "*", name, bld.ids.ldpTargetId(k.name, name), k.targets[idx].weight, PoolId(bld, b, k.targets[idx]));
        targetMap := targetMap[name := target];
      }
      idx := idx + 1;
    }
    TargetMapContents(bld, b, k, |k.targets|);
    TargetMapSize(bld, b, k, |k.targets|);
    assert k.targets[..|k.targets|] == k.targets;
    var names;
    names, ts := Collections.Values(targetMap);
    forall i | 0 <= i < |ts|
      ensures ts[i].name == names[i]
      ensures exists d :: 0 <= d < |k.targets| && ValidWeight(k.targets[d]) && ts[i] == MakeTarget(bld, b, k, d)
    {
      var d :| 0 <= d < |k.targets| && ValidWeight(k.targets[d]) && names[i] == TargetName(k.name, d);
    }
    forall d | 0 <= d < |k.targets| && ValidWeight(k.targets[d])
      ensures MakeTarget(bld, b, k, d) in ts
    {
      var p :| 0 <= p < |names| && names[p] == TargetName(k.name, d);
      assert ts[p] == MakeTarget(bld, b, k, d);
    }
  }

  /** Every resolved target has weight at least one and the wildcard Etag. */
  lemma ResolvedTargetsValid(bld: Builder, b: BackendId, k: K8sPolicy, ts: seq<Target>)
    requires ResolvedTargets(bld, b, k, ts)
    ensures forall t :: t in ts ==> t.weightPerServer >= 1 && t.etag == "*"
  {
  }

  /** A declared target of weight below one leaves no trace: no resolved target carries
      its name. */
  lemma InvalidTargetDropped(bld: Builder, b: BackendId, k: K8sPolicy, ts: seq<Target>, i: nat)
    requires ResolvedTargets(bld, b, k, ts)
    requires i < |k.targets| && !ValidWeight(k.targets[i])
    ensures forall t :: t in ts ==> t.name != TargetName(k.name, i)
  {
    forall t | t in ts
      ensures t.name != TargetName(k.name, i)
    {
      var d :| 0 <= d < |k.targets| && ValidWeight(k.targets[d]) && t == MakeTarget(bld, b, k, d);
      if t.name == TargetName(k.name, i) {
        TargetNameInjective(k.name, d, i);
      }
    }
  }

  /** A declared target of valid weight at index `i` yields exactly one resolved target
      with the name `<policy>-target-<i>`: the one built from that declaration. */
  lemma ValidTargetExactlyOnce(bld: Builder, b: BackendId, k: K8sPolicy, ts: seq<Target>, i: nat)
    requires ResolvedTargets(bld, b, k, ts)
    requires i < |k.targets| && ValidWeight(k.targets[i])
    ensures exists p :: 0 <= p < |ts| && ts[p] == MakeTarget(bld, b, k, i)
    ensures forall p :: 0 <= p < |ts| && ts[p].name == TargetName(k.name, i) ==> ts[p] == MakeTarget(bld, b, k, i)
  {
  }

  /** An example: targets svcA:80 with weight 3 and svcB:80 with weight 0 on policy
      `ldp1` resolve to the single target `ldp1-target-0`, weight 3, pool of svcA. */
  lemma ExampleTwoTargetsOneDropped(bld: Builder, b: BackendId, ts: seq<Target>)
    requires ResolvedTargets(bld, b, K8sPolicy("ldp1", [PolicyTarget("svcA", ServicePort("", 80), 3),
                                                       PolicyTarget("svcB", ServicePort("", 80), 0)]), ts)
    ensures |ts| == 1
    ensures ts[0].name == "ldp1-target-0" && ts[0].weightPerServer == 3
    ensures ts[0].backendAddressPoolId == PoolId(bld, b, PolicyTarget("svcA", ServicePort("", 80), 3))
  {
    var k := K8sPolicy("ldp1", [PolicyTarget("svcA", ServicePort("", 80), 3),
                                PolicyTarget("svcB", ServicePort("", 80), 0)]);
    assert k.targets[..1] == [k.targets[0]];
    assert k.targets[..1][..0] == [];
    assert CountValid(k.targets) == 1;
    assert ts[0] in ts;
    var d :| 0 <= d < |k.targets| && ValidWeight(k.targets[d]) && ts[0] == MakeTarget(bld, b, k, d);
    assert d == 0;
    assert Decimal(0) == "0";
  }
}

=== FILE: wrappers.dfy ===
/** The optional value used for lookups that can miss, such as a policy fetch. */
module Wrappers {

  datatype Option<+T> = None | Some(value: T)
}
